=== FILE: README.md ===
# Byte-range video streaming of the movies router

A Dafny model of the `GET /movies/:id/stream` handler in `routes/movies.js`.
The handler answers one single-range request on a stored video with one of
three responses: 404 when the file is missing, 416 when the start lies past
the file, and otherwise 206 Partial Content with at most `CHUNK_SIZE` bytes
(section 4.1 and section 4.4 of RFC 7233, `bytes` unit of section 2.1).
The model also covers the input check of `POST /movies`.

The model follows the JavaScript closely:

- **Numbers.** `JsNumber` models a JavaScript number as NaN or an unbounded
  integer (see "Left out" for why doubles are not needed).
  `parseInt(s, 10)` skips leading white space, reads an optional sign and
  the longest digit run, and gives NaN when there are no digits. `+`, `-`
  and `Math.min` absorb NaN. Every comparison with NaN is false.
- **Strings.** `JsString` models three string operations.
  - `replace(/bytes=/, '')` deletes the leftmost occurrence, wherever it is.
  - `split('-')` keeps every piece, empty ones included.
  - `join(',')` puts one separator between neighbours.
- **The handler.** `RangeStream` models the handler itself.
  - A missing or empty Range header is replaced by `bytes=0-`.
  - The start is `parseInt(parts[0])`. The end is `parseInt(parts[1])` when
    that piece is non-empty, otherwise `size - 1`.
  - A start `>= size` gives 416. Anything else, NaN included, gives 206 with
    `chunkEnd = min(start + CHUNK_SIZE - 1, end)` and
    `contentLength = chunkEnd - start + 1`.
  - The file is `Option<seq<byte>>`, with None for a failed `fs.stat`.
  - The chunk cap is a parameter. The handler's own value is `CHUNK_SIZE`,
    which is `50 ** 6` = 15,625,000,000.
- **Paging through a file.** `ChunkedDownload` models a client that fetches
  a whole file with successive `bytes=<start>-` requests. It proves that
  the windows tile the file and that the bodies put together are the file.
- **The corrected handler.** `CorrectedRange` is the handler with the range
  checks of RFC 7233 added (see Findings). It reads the header exactly as
  the handler does. It then treats the pieces as follows:
  - a last offset past the file means the rest of the file (section 2.1);
  - a last offset before the first is refused with 416 (sections 2.1 and 3.1);
  - `bytes=-<n>` means the final `n` bytes (section 2.1);
  - a header that names no byte range is ignored (section 3.1).

  It proves that every 206 it gives keeps its promises. It agrees with the
  handler as written on every request whose parsed bounds satisfy
  `start <= end < size` (`FixedAgreesOnWellFormed`), and on every
  `bytes=<start>-` request (`FixedAgreesOnOpenRange`). It differs where the
  handler as written errs, as listed under "## Findings".
- **Creating a movie.** `MovieInput` models the body check of `POST /movies`
  and the comma-joined hashtags it stores. `hashtags.join(',')` throws a
  TypeError when a tag is an object with its own `toString` key, at any
  depth. A JSON value is never callable, so such an object has no usable
  `toString`. The route then throws before `db.run`, and no row is
  inserted. What status the client sees is up to the app's error handler
  (Express's default answers 500), and the app setup is not part of this
  model.

`RangeStream` follows the code as written, including where it departs from
RFC 7233: a start that is not a number stays NaN, and an end past the file
or before the start is used as it is.

## Model

| member | source | states |
|---|---|---|
| JsNumber.Plus | routes/movies.js:50-51 | `+` gives NaN exactly when an operand is NaN, and subtracting the second operand again gives the first |
| JsNumber.Minus | routes/movies.js:51 | `-` gives NaN exactly when an operand is NaN |
| JsNumber.Min | routes/movies.js:50 | `Math.min` gives NaN exactly when an argument is NaN, and otherwise the argument that is not larger than the other |
| JsNumber.AtLeast | routes/movies.js:45 | `>=` is false whenever an operand is NaN, and otherwise is the integer comparison |
| JsNumber.Decimal | routes/movies.js:56 | the decimal text of an offset is never empty |
| JsNumber.ToString | routes/movies.js:56-58 | a number's text is never empty; it is `NaN` exactly for NaN; a finite number's text starts with a minus sign exactly when it is negative |
| JsNumber.ParseInt | routes/movies.js:42 | `parseInt` of a piece without a minus sign is NaN or a non-negative integer |
| JsNumber.ParseIntWithoutDigits | routes/movies.js:42 | a piece without any digit, the empty piece included, parses to NaN |
| JsNumber.ParseIntOfDecimal | routes/movies.js:42-43 | `parseInt` reads back the decimal text of any non-negative integer, whatever non-digit text follows |
| JsNumber.DecimalValue | routes/movies.js:56 | the decimal digits written for an offset denote that offset |
| JsNumber.DecimalIsCanonical | routes/movies.js:56 | the decimal text of an offset is all digits, with a leading zero only for 0 |
| JsString.RemoveFirst | routes/movies.js:41 | the replace leaves the text either unchanged in length or shorter by exactly the pattern's length |
| JsString.RemoveFirstLeftmost | routes/movies.js:41 | `replace(/bytes=/, '')` removes the leftmost occurrence and keeps the text before and after it |
| JsString.RemoveFirstWhenAbsent | routes/movies.js:41 | a header without `bytes=` is left unchanged by the replace |
| JsString.RemoveFirstOfPrefixed | routes/movies.js:41 | a header that starts with `bytes=` loses exactly that prefix |
| JsString.Split | routes/movies.js:41 | `split` always returns at least one piece, the empty string splitting into one empty piece |
| JsString.Join | routes/movies.js:98 | a join starts with its first part |
| JsString.JoinOfSplit | routes/movies.js:41 | joining the pieces of `split('-')` with `-` gives back the string, so no character is lost |
| JsString.SplitPiecesLackSeparator | routes/movies.js:41 | no piece of `split('-')` contains a dash |
| JsString.SplitWithoutSeparator | routes/movies.js:41 | a string without the separator splits into itself alone |
| JsString.SplitAtFirstSeparator | routes/movies.js:41 | the text before the first separator is the first piece |
| JsString.SplitOfJoin | routes/movies.js:98 | splitting a join of separator-free parts gives the parts back |
| RangeStream.EffectiveRange | routes/movies.js:35-38 | the Range value parsed is never empty, and a non-empty header is parsed as sent |
| RangeStream.RangeParts | routes/movies.js:35-41 | the header splits into at least one piece, none of which contains a dash |
| RangeStream.ParseRange | routes/movies.js:42-43 | a finite start is never negative; a finite end is non-negative or the `size - 1` default |
| RangeStream.Respond | routes/movies.js:45-51 | 416 exactly when the start is a number at or past the size; otherwise 206 with the parsed start, a window end that is at most the requested end and at most `start + chunk - 1` and equal to one of them, a length of `chunkEnd - start + 1` that is at most the cap, and NaN in the end exactly when the start or the end is NaN |
| RangeStream.Handle | routes/movies.js:30-51 | 404 exactly when the file is missing, decided before the header is read; otherwise the answer for the parsed header |
| RangeStream.ContentRange | routes/movies.js:56 | Content-Range starts with `bytes ` followed by more text |
| RangeStream.Headers | routes/movies.js:53-62 | the `setHeader` and `writeHead` calls of lines 53-62 name six headers, none of them twice |
| RangeStream.ReadStream | routes/movies.js:64 | a read stream has a defined body exactly for ordered non-negative bounds; the body has at most `last - first + 1` bytes, and exactly that many when the window ends inside the file |
| RangeStream.FileBytesSent | routes/movies.js:45-64 | 404 and 416 send no file bytes; a 206 with a defined body sends at most `chunkEnd - start + 1` bytes |
| RangeStream.ReadStreamInside | routes/movies.js:64 | a read stream over an inclusive window inside the file delivers exactly that window, `last - first + 1` bytes |
| RangeStream.RangePartsOfHeader | routes/movies.js:35-41 | `bytes=<start>-[<end>]` splits into the start digits and the end digits, or an empty piece when the end is omitted |
| RangeStream.ParseRangeOfHeader | routes/movies.js:41-43 | such a header is read back as its start, and as its end or `size - 1` when the end is omitted |
| RangeStream.HeaderResponse | routes/movies.js:35-51 | a `bytes=<start>-[<end>]` header gets the handler's answer on integer bounds for that start and for that end or `size - 1` |
| RangeStream.OpenRangeResponse | routes/movies.js:43-51 | `bytes=<start>-` inside the file gets the next `chunk` bytes, or the rest of the file when fewer remain |
| RangeStream.StartPastFileRefused | routes/movies.js:45-48 | a start at or past the size gets 416 with its plain-text body for any requested end, and no file bytes are sent |
| RangeStream.AbsentRangeIsOpenRange | routes/movies.js:35-38 | no Range header, an empty one and `bytes=0-` are answered identically, with the first chunk of the file or 416 for an empty file |
| RangeStream.SatisfiableRange | routes/movies.js:45-64 | when `start <= end < size`: 206 with `1 <= contentLength <= chunk` and `chunkEnd < size`; the body is the window and has exactly Content-Length bytes; Content-Range is `bytes start-chunkEnd/size` |
| RangeStream.ContentRangeRoundTrip | routes/movies.js:56 | a client that reads Content-Range back gets the window's first and last offsets and the file size |
| RangeStream.ExpectedPastEnd | routes/movies.js:50-64 | for an end at or past the file, the handler's answer on integer bounds names that end when it lies within the cap; its window reaches past the file exactly when `start + chunk - 1` does too, and then the stream delivers only the rest of the file |
| RangeStream.EndPastFileOverstatesLength | routes/movies.js:43-64 | an end at or past the file is not clamped: Content-Length announces more bytes than the stream delivers exactly when the cap `start + chunk - 1` also reaches past the file, as the handler's 50 ** 6-byte cap always does for smaller files; when the cap cuts first, the counts agree |
| RangeStream.ExpectedReversed | routes/movies.js:50-64 | the handler's answer on integer bounds for an end before the start is a window with no defined stream body |
| RangeStream.ReversedRangeNonPositiveLength | routes/movies.js:43-55 | for an end before the start the handler still writes 206 headers, with a Content-Length of zero or less |
| RangeStream.SuffixRangeParts | routes/movies.js:41 | `bytes=-<digits>` splits into an empty start piece and the digits |
| RangeStream.SuffixRangeParse | routes/movies.js:42-43 | `bytes=-<n>` is read as a NaN start and the end `n` |
| RangeStream.SuffixRangeYieldsNaN | routes/movies.js:42-58 | for `bytes=-<n>` the handler writes 206 headers with `bytes NaN-NaN/size` and a NaN Content-Length |
| RangeStream.NaNContentRange | routes/movies.js:56 | NaN bounds are written as `NaN` in Content-Range |
| RangeStream.ExampleHeaders | routes/movies.js:37 | the headers of the worked examples are written `bytes=0-`, `bytes=4999999-` and `bytes=5000000-` |
| RangeStream.FirstChunkHeaders | routes/movies.js:56-58 | the first window of a 5,000,000-byte file is written `bytes 0-999999/5000000` with length `1000000` |
| RangeStream.LastByteHeaders | routes/movies.js:56-58 | the last-byte window is written `bytes 4999999-4999999/5000000` with length `1` |
| RangeStream.FirstChunkExample | routes/movies.js:35-58 | `bytes=0-` on 5,000,000 bytes with a 1,000,000-byte cap gives `bytes 0-999999/5000000`, length 1000000 |
| RangeStream.LastByteExample | routes/movies.js:42-58 | `bytes=4999999-` on the same file gives `bytes 4999999-4999999/5000000`, length 1 |
| RangeStream.PastEndExample | routes/movies.js:30-48 | `bytes=5000000-` on the same file gives 416, and a missing file gives 404 |
| RangeStream.WholeFileUnderChunkSize | routes/movies.js:35-64 | under the handler's own CHUNK_SIZE a request without Range gets the whole 5,000,000-byte file in one 206 |
| ChunkedDownload.NextChunk | routes/movies.js:43-64 | `bytes=<start>-` inside the file gets `min(chunk, size - start)` bytes starting at `start` |
| ChunkedDownload.Fetch | routes/movies.js:43-64 | one request returns the window's last offset and exactly the window's bytes |
| ChunkedDownload.TilesExtend | routes/movies.js:50-51 | appending the next window keeps the windows contiguous, in order and full-sized |
| ChunkedDownload.TilesDisjoint | routes/movies.js:50-51 | windows that follow one another without gaps never overlap: each ends before any later one begins |
| ChunkedDownload.Download | routes/movies.js:26-67 | paging from 0 with `start := chunkEnd + 1` gives contiguous, disjoint windows from 0 to `size - 1`, `ceil(size / chunk)` of them, each `chunk` bytes except possibly the last, and bodies that put together are the file |
| CorrectedRange.Select | routes/movies.js:41-48 | corrected: what a header selects is always a non-empty range inside the file, and an empty file has nothing to select |
| CorrectedRange.RespondFixed | routes/movies.js:45-51 | corrected: 416 exactly when nothing is selected; every 206 serves a non-empty window inside the file of at most `chunk` bytes, starting at the first selected offset, with as many bytes as announced, and a full `chunk` whenever it stops before the last selected offset |
| CorrectedRange.HandleFixed | routes/movies.js:30-51 | corrected: 404 exactly when the file is missing, and every 206 keeps its promises |
| CorrectedRange.FixedAgreesOnWellFormed | routes/movies.js:42-51 | on a request with `start <= end < size` the corrected and the original handler answer alike |
| CorrectedRange.FixedAgreesOnOpenRange | routes/movies.js:35-51 | on every `bytes=<start>-` request the two handlers answer alike |
| CorrectedRange.FixedStartPastFileRefused | routes/movies.js:45-48 | a start at or past the file gets 416 from both handlers, whatever end is asked for |
| CorrectedRange.FixedEndPastFile | routes/movies.js:43-51 | corrected: an end past the file means the rest of the file (section 2.1 of RFC 7233), and the 206 keeps its promises |
| CorrectedRange.FixedReversedRefused | routes/movies.js:43-48 | corrected: an end before the start is invalid and gets 416 (sections 2.1 and 3.1 of RFC 7233) |
| CorrectedRange.FixedSuffixRange | routes/movies.js:41-45 | corrected: `bytes=-<n>` is served from offset `size - min(n, size)`, so a body under the cap is exactly the last `min(n, size)` bytes; `n = 0` or an empty file gets 416 |
| CorrectedRange.FixedIgnoresUnreadableRange | routes/movies.js:35-43 | corrected: a header whose first piece is non-empty and has no digit is ignored, and is answered as both handlers answer a request without Range |
| MovieInput.ElementString | routes/movies.js:98 | writing a tag throws exactly for an object with its own `toString` key, or an array holding one; `join` writes a string tag as itself; only `null`, strings and arrays can be written as nothing |
| MovieInput.JoinItems | routes/movies.js:98 | the join throws exactly when some tag throws; otherwise the stored text starts with the first tag's text |
| MovieInput.CreateMovie | routes/movies.js:92-98 | 400 exactly when a required text field is missing or falsy or `hashtags` is not an array; for a complete body, a throw before `db.run` exactly when some tag throws; otherwise the row carries the fields as sent and the comma-joined hashtags |
| MovieInput.JoinItemsOfStrings | routes/movies.js:98 | string tags are stored as the strings themselves with one comma between neighbours |
| MovieInput.HashtagsRoundTrip | routes/movies.js:93-98 | a non-empty list of comma-free string tags is recovered by splitting the stored column at commas |
| MovieInput.EmptyHashtags | routes/movies.js:98 | an empty hashtags array is stored as the empty string, which splits back into one empty tag |
| MovieInput.IncompleteBodiesRefused | routes/movies.js:93-94 | a missing or empty title, or hashtags given as a string, gets 400 |
| MovieInput.NestedHashtagsExample | routes/movies.js:93-98 | nested tag arrays are flattened into the same comma-joined text, numbers are written in decimal, and `null` is written as nothing |
| MovieInput.ObjectHashtagsExample | routes/movies.js:93-98 | a tag `{"toString": 1}`, alone or inside a nested array, makes the route throw with nothing inserted; an object tag without that key is stored as `[object Object]` |

## Left out

- `fs.stat`, `fs.createReadStream`, `stream.pipe` and the response writes are I/O and are not modelled. The file is its bytes, and a failed stat is None.
- What the read stream does with NaN or reversed bounds is not modelled; it is "no defined body". Node's `fs.createReadStream` checks its `start` and `end` options and may throw for these bounds inside the stat callback, after `writeHead` has run. What the client then receives is not part of this model.
- Building the path from the movie id with `path.join` (routes/movies.js:28) is library normalisation and is not modelled. The id only selects the file.
- Headers added outside the handler's own calls are not modelled. These are the `Access-Control-Allow-Origin: *` that `router.use(cors())` (routes/movies.js:22) sets on every response of this router, the 206 included; the `Date` and `Connection` headers Node adds to every response; and the `Content-Type` of the 404 and 416 text bodies with the `ETag` and `Content-Length` that `send` adds. For 404 and 416 only the status and the body text are modelled.
- The duplicate `setHeader` calls for `Content-Disposition` and `Cache-Control` (routes/movies.js:53-54) are not modelled separately. `writeHead` sets the same two values again, and `Headers` lists them once.
- Double rounding is left out of the handler: a parsed offset is kept exact. Files are taken to be shorter than 2^53 − CHUNK_SIZE bytes, so a start below the size, `start + CHUNK_SIZE - 1`, `chunkEnd` and `contentLength` are exact doubles. A parsed end of 2^53 or more is rounded in JavaScript, or becomes Infinity for a very long digit run. It still lies above `start + CHUNK_SIZE - 1`, and it only meets `Math.min` against that value, so the answer is the same. A start of 2^53 or more is rounded too, but it stays at or past the size and gets 416 either way.
- `-0` is left out. It behaves as `0` in every comparison and in `String`.
- With radix 10 `parseInt` strips no `0x` prefix; hexadecimal is not modelled.
- MovieInput.ElementString: tag numbers are integers written in plain decimal. A JSON number with a fraction or an exponent, such as `1.5` or `1e21`, is written by JavaScript as `1.5` or `1e+21`. Integers of 10^21 and more are also written with an exponent. JavaScript's number-to-text conversion is not part of this model.
- CorrectedRange.FixedSuffixRange: an empty file gets 416 even for `bytes=-<n>` with `n > 0`. RFC 7233 calls that range satisfiable, but there is no byte a 206 could name.
- Concurrency, cancellation and client disconnects are left out. The handler keeps no state between requests.
- `POST /movies/upload`, the multer storage and its random file names, and every sqlite call of the movies and users routers are left out: they are I/O, randomness or foreign database calls. The database's own result (201 or "Failed to add movie") is not modelled. The model stops at the row handed to `db.run`.
- JsNumber.ParseInt: its own contract states only that a piece without a minus sign never reads as negative. What it reads from digits is stated by JsNumber.ParseIntOfDecimal and JsNumber.ParseIntWithoutDigits.
- routes/users.js, routes/index.js and bin/db.js are not part of this model.
- ChunkedDownload.Download assumes a file that does not change between requests.

## Findings

| source | as written | input that shows it | evidently intended | confidence | as-written member | corrected member |
|---|---|---|---|---|---|---|
| routes/movies.js:43-51 | a client-supplied end is used unclamped in `Math.min(start + CHUNK_SIZE - 1, end)` | a 10-byte file and `Range: bytes=5-20`: Content-Range `bytes 5-20/10` and Content-Length 16, but the stream sends 5 bytes | the window ends at `min(end, start + CHUNK_SIZE - 1, size - 1)`, since a last offset past the file means the rest of the file (section 2.1 of RFC 7233) | high, not executed | RangeStream.EndPastFileOverstatesLength | CorrectedRange.FixedEndPastFile |
| routes/movies.js:43-51 | an end before the start is not rejected | a 10-byte file and `Range: bytes=5-2`: the handler writes 206 headers with Content-Length -2; what the read stream then does is not modelled | 416, since a last offset before the first is invalid (sections 2.1 and 3.1 of RFC 7233) | high, not executed | RangeStream.ReversedRangeNonPositiveLength | CorrectedRange.FixedReversedRefused |
| routes/movies.js:42-45 | an unparsable start stays NaN and passes the `start >= size` test | `Range: bytes=-500`: the handler writes 206 headers with `Content-Range: bytes NaN-NaN/size` and Content-Length NaN; what the read stream then does is not modelled | a suffix range, the final 500 bytes (section 2.1 of RFC 7233) | high, not executed | RangeStream.SuffixRangeYieldsNaN | CorrectedRange.FixedSuffixRange |

=== FILE: chunked_download.dfy ===
/** A client that fetches a whole video through the streaming handler: it
    asks for `bytes=<start>-` from offset 0, keeps the body, and asks again
    from the byte after the window named in the answer until the file is
    exhausted. The handler keeps no state between the requests. */
module ChunkedDownload {
  import opened Wrappers
  import opened JsNumber
  import opened RangeStream

  /** Ceiling division advances by one for every full chunk and once more
      for a final partial one. */
  lemma CeilingStep(start: nat, width: nat, chunk: nat)
    requires chunk >= 1
    requires start % chunk == 0
    requires 1 <= width <= chunk
    ensures (start + width + chunk - 1) / chunk == (start + chunk - 1) / chunk + 1
  {
    var k := start / chunk;
    assert start == k * chunk;
    assert k * chunk <= start + chunk - 1 < (k + 1) * chunk;
    assert (k + 1) * chunk <= start + width + chunk - 1 < (k + 2) * chunk;
    DivisionBetween(start + chunk - 1, chunk, k);
    DivisionBetween(start + width + chunk - 1, chunk, k + 1);
  }

  /** A product of two non-negative factors is non-negative. */
  lemma MulNonNegative(x: int, y: int)
    requires x >= 0 && y >= 0
    ensures x * y >= 0
  {
  }

  /** The quotient is the q whose multiple brackets the dividend. */
  lemma DivisionBetween(a: nat, d: nat, q: nat)
    requires d >= 1
    requires q * d <= a < (q + 1) * d
    ensures a / d == q
  {
    var r := a / d;
    assert a == r * d + a % d;
    assert (r - q - 1) * d == r * d - q * d - d;
    assert (q - r - 1) * d == q * d - r * d - d;
    if r - q - 1 >= 0 {
      MulNonNegative(r - q - 1, d);
    }
    if q - r - 1 >= 0 {
      MulNonNegative(q - r - 1, d);
    }
  }

  /** The answer to `bytes=<start>-` for an offset inside the file, and
      the bytes it carries. */
  lemma NextChunk(chunk: nat, file: seq<byte>, start: nat)
    requires chunk >= 1
    requires start < |file|
    ensures var r := Handle(chunk, Some(file), Some(RangeHeader(start, None)));
            && r.Partial? && r.chunkEnd.Finite?
            && start <= r.chunkEnd.value < |file|
            && r.chunkEnd.value - start + 1 == MinInt(chunk, |file| - start)
            && FileBytesSent(file, r) == Some(file[start..r.chunkEnd.value + 1])
  {
    OpenRangeResponse(chunk, file, start);
    ReadStreamInside(file, start, MinInt(start + chunk - 1, |file| - 1));
  }

  /** One request `bytes=<start>-` for an offset inside the file: the last
      offset of the window in the answer, and the bytes that came with it. */
  method Fetch(chunk: nat, file: seq<byte>, start: nat) returns (last: nat, bytes: seq<byte>)
    requires chunk >= 1
    requires start < |file|
    ensures start <= last < |file|
    ensures last - start + 1 == MinInt(chunk, |file| - start)
    ensures bytes == file[start..last + 1]
  {
    var response := Handle(chunk, Some(file), Some(RangeHeader(start, None)));
    NextChunk(chunk, file, start);
    last := response.chunkEnd.value;
    bytes := FileBytesSent(file, response).value;
  }

  /** `windows` cover the offsets `0..upto-1` of an `n`-byte file in order,
      each starting right after the one before, and each holds `chunk` bytes
      or, when fewer remain, the rest of the file. */
  predicate Tiles(n: nat, chunk: nat, windows: seq<(nat, nat)>, upto: nat) {
    && (|windows| == 0 <==> upto == 0)
    && (|windows| > 0 ==> windows[0].0 == 0 && windows[|windows| - 1].1 == upto - 1)
    && (forall i :: 0 <= i < |windows| ==> windows[i].0 <= windows[i].1 < upto)
    && (forall i :: 0 <= i < |windows| ==> windows[i].1 - windows[i].0 + 1 == MinInt(chunk, n - windows[i].0))
    && (forall i :: 0 <= i < |windows| - 1 ==> windows[i + 1].0 == windows[i].1 + 1)
  }

  /** Appending the next window keeps the tiling. */
  lemma TilesExtend(n: nat, chunk: nat, windows: seq<(nat, nat)>, start: nat, last: nat)
    requires Tiles(n, chunk, windows, start)
    requires start <= last < n
    requires last - start + 1 == MinInt(chunk, n - start)
    ensures Tiles(n, chunk, windows + [(start, last)], last + 1)
  {
  }

  /** Tiled windows never overlap: every window ends before any later one
      begins. */
  lemma TilesDisjoint(n: nat, chunk: nat, windows: seq<(nat, nat)>, upto: nat)
    requires Tiles(n, chunk, windows, upto)
    ensures forall i, j :: 0 <= i < j < |windows| ==> windows[i].1 < windows[j].0
  {
    forall i, j | 0 <= i < j < |windows|
      ensures windows[i].1 < windows[j].0
    {
      TilesOrdered(n, chunk, windows, upto, i, j);
    }
  }

  /** In a tiling, an earlier window ends before a later one starts. */
  lemma {:induction false} TilesOrdered(n: nat, chunk: nat, windows: seq<(nat, nat)>, upto: nat, i: nat, j: nat)
    requires Tiles(n, chunk, windows, upto)
    requires i < j < |windows|
    ensures windows[i].1 < windows[j].0
    decreases j - i
  {
    if j > i + 1 {
      TilesOrdered(n, chunk, windows, upto, i, j - 1);
      assert windows[j].0 == windows[j - 1].1 + 1;
    }
  }

  /** A full chunk keeps the next offset on a chunk boundary. */
  lemma NextBoundary(start: nat, chunk: nat)
    requires chunk >= 1
    requires start % chunk == 0
    ensures (start + chunk) % chunk == 0
  {
    var k := start / chunk;
    assert start + chunk == (k + 1) * chunk;
    DivisionBetween(start + chunk, chunk, k + 1);
  }

  /** Where the download stands after the bytes before `start` have
      arrived: the body is exactly those bytes, the windows tile them, one
      window per chunk begun, and the next request starts on a chunk
      boundary unless nothing is left. */
  predicate Progress(file: seq<byte>, chunk: nat, body: seq<byte>, windows: seq<(nat, nat)>, start: nat) {
    && chunk >= 1
    && start <= |file|
    && body == file[..start]
    && (start == |file| || start % chunk == 0)
    && |windows| == (start + chunk - 1) / chunk
    && Tiles(|file|, chunk, windows, start)
  }

  /** Nothing fetched yet is progress. */
  lemma ProgressStart(file: seq<byte>, chunk: nat)
    requires chunk >= 1
    ensures Progress(file, chunk, [], [], 0)
  {
    DivisionBetween(chunk - 1, chunk, 0);
  }

  /** Appending the window served from `start`, and its bytes, is progress. */
  lemma WindowStep(file: seq<byte>, chunk: nat, body: seq<byte>, windows: seq<(nat, nat)>, start: nat, last: nat)
    requires Progress(file, chunk, body, windows, start)
    requires start <= last < |file|
    requires last - start + 1 == MinInt(chunk, |file| - start)
    ensures Progress(file, chunk, body + file[start..last + 1], windows + [(start, last)], last + 1)
  {
    CeilingStep(start, last - start + 1, chunk);
    TilesExtend(|file|, chunk, windows, start, last);
    if last + 1 < |file| {
      NextBoundary(start, chunk);
    }
    assert file[..start] + file[start..last + 1] == file[..last + 1];
  }

  /** Requests `bytes=<start>-` from 0 onwards until the whole file has
      arrived. The answers' windows are contiguous, start at 0, end at the
      last byte, each holds `chunk` bytes except possibly the last, there
      are ceil(size / chunk) of them, and the bodies put together are the
      file. */
  method Download(chunk: nat, file: seq<byte>) returns (body: seq<byte>, windows: seq<(nat, nat)>)
    requires chunk >= 1
    ensures body == file
    ensures |windows| == (|file| + chunk - 1) / chunk
    ensures Tiles(|file|, chunk, windows, |file|)
    ensures forall i, j :: 0 <= i < j < |windows| ==> windows[i].1 < windows[j].0
  {
    var start: nat := 0;
    body := [];
    windows := [];
    ProgressStart(file, chunk);
    while start < |file|
      invariant Progress(file, chunk, body, windows, start)
      decreases |file| - start
    {
      var last, bytes := Fetch(chunk, file, start);
      WindowStep(file, chunk, body, windows, start, last);
      body := body + bytes;
      windows := windows + [(start, last)];
      start := last + 1;
    }
    assert file[..|file|] == file;
    TilesDisjoint(|file|, chunk, windows, |file|);
  }
}

=== FILE: js_number.dfy ===
/** The JavaScript number operations the streaming handler relies on:
    `parseInt(s, 10)`, `Math.min`, `+`, `-`, `>=` and `String(n)`.

    A number here is an unbounded integer or NaN. A parsed offset below
    2^53 is an exact double. A parsed end of 2^53 or more, which JavaScript
    rounds, only meets `Math.min` against the smaller
    `start + CHUNK_SIZE - 1`, and a start that large gets 416 either way,
    so the rounding does not change an answer for files shorter than
    2^53 - CHUNK_SIZE bytes. */
module JsNumber {

  datatype Number = NaN | Finite(value: int)

  /** `a + b`; NaN absorbs. */
  function Plus(a: Number, b: Number): (r: Number)
    ensures r.Finite? <==> a.Finite? && b.Finite?
    ensures r.Finite? ==> Minus(r, b) == a
  {
    if a.Finite? && b.Finite? then Finite(a.value + b.value) else NaN
  }

  /** `a - b`; NaN absorbs. */
  function Minus(a: Number, b: Number): (r: Number)
    ensures r.Finite? <==> a.Finite? && b.Finite?
  {
    if a.Finite? && b.Finite? then Finite(a.value - b.value) else NaN
  }

  /** `Math.min(a, b)`; NaN if either argument is NaN. */
  function Min(a: Number, b: Number): (r: Number)
    ensures r.Finite? <==> a.Finite? && b.Finite?
    ensures r.Finite? ==> r.value <= a.value && r.value <= b.value && (r.value == a.value || r.value == b.value)
  {
    if a.Finite? && b.Finite? then Finite(if a.value <= b.value then a.value else b.value) else NaN
  }

  /** `a >= b`; every comparison involving NaN is false. */
  function AtLeast(a: Number, b: Number): (r: bool)
    ensures r ==> a.Finite? && b.Finite?
    ensures a.Finite? && b.Finite? ==> (r <==> !(a.value < b.value))
  {
    a.Finite? && b.Finite? && a.value >= b.value
  }

  // ---------------------------------------------------------------------
  // Decimal digits

  predicate IsDigit(c: char) {
    '0' <= c <= '9'
  }

  predicate AllDigits(s: string) {
    forall i :: 0 <= i < |s| ==> IsDigit(s[i])
  }

  /** The value of a digit character (0 for any other character). */
  function DigitValue(c: char): nat {
    if IsDigit(c) then c as int - '0' as int else 0
  }

  function DigitChar(d: nat): (c: char)
    requires d < 10
    ensures IsDigit(c) && DigitValue(c) == d
  {
    ('0' as int + d) as char
  }

  /** The digits `String(n)` writes for a non-negative integer. */
  function Decimal(n: nat): (s: string)
    ensures |s| >= 1
    decreases n
  {
    if n < 10 then [DigitChar(n)] else Decimal(n / 10) + [DigitChar(n % 10)]
  }

  /** Appending a digit to a positive number appends it to the spelling. */
  lemma DecimalPush(n: nat, d: nat)
    requires n >= 1 && d < 10
    ensures Decimal(10 * n + d) == Decimal(n) + [DigitChar(d)]
  {
    assert (10 * n + d) / 10 == n && (10 * n + d) % 10 == d;
  }

  /** A non-negative number is written as its decimal digits alone. */
  lemma ToStringOfNat(n: nat)
    ensures ToString(Finite(n)) == Decimal(n)
  {
  }

  /** The value of a string of decimal digits, most significant first. */
  function DigitsValue(s: string): nat {
    if |s| == 0 then 0 else DigitsValue(s[..|s| - 1]) * 10 + DigitValue(s[|s| - 1])
  }

  /** `String(n)` writes only digits, with no leading zero except for 0. */
  lemma {:induction false} DecimalIsCanonical(n: nat)
    ensures AllDigits(Decimal(n))
    ensures Decimal(n)[0] == '0' <==> n == 0
    decreases n
  {
    if n >= 10 {
      DecimalIsCanonical(n / 10);
    }
  }

  /** Reading back the digits of `n` gives `n`. */
  lemma {:induction false} DecimalValue(n: nat)
    ensures DigitsValue(Decimal(n)) == n
    decreases n
  {
    if n >= 10 {
      var s := Decimal(n);
      assert s[..|s| - 1] == Decimal(n / 10);
      DecimalValue(n / 10);
    }
  }

  /** `String(x)`: "NaN", or the decimal digits with a leading minus for a
      negative value. */
  function ToString(x: Number): (s: string)
    ensures |s| >= 1
    ensures s == "NaN" <==> x.NaN?
    ensures x.Finite? ==> (s[0] == '-' <==> x.value < 0)
  {
    match x
    case NaN => "NaN"
    case Finite(v) =>
      var digits := Decimal(if v < 0 then -v else v);
      DecimalIsCanonical(if v < 0 then -v else v);
      var s := if v < 0 then "-" + digits else digits;
      assert s[0] != "NaN"[0];
      s
  }

  // ---------------------------------------------------------------------
  // parseInt

  /** ECMAScript's StrWhiteSpaceChar: the white space and line terminator
      code points that `parseInt` skips before the number. */
  predicate IsWhiteSpace(c: char) {
    || c == '\t' || c == '\n' || c == '\U{000B}' || c == '\U{000C}' || c == '\r'
    || c == ' ' || c == '\U{00A0}' || c == '\U{1680}'
    || ('\U{2000}' <= c <= '\U{200A}')
    || c == '\U{2028}' || c == '\U{2029}' || c == '\U{202F}' || c == '\U{205F}'
    || c == '\U{3000}' || c == '\U{FEFF}'
  }

  /** `s` without its leading white space. */
  function TrimStart(s: string): string {
    if |s| > 0 && IsWhiteSpace(s[0]) then TrimStart(s[1..]) else s
  }

  /** TrimStart removes exactly the white space at the front: what is left is
      a suffix of `s` that does not start with white space, and everything
      before it is white space. */
  lemma {:induction false} TrimStartSpec(s: string)
    ensures |TrimStart(s)| <= |s| && TrimStart(s) == s[|s| - |TrimStart(s)|..]
    ensures forall i :: 0 <= i < |s| - |TrimStart(s)| ==> IsWhiteSpace(s[i])
    ensures |TrimStart(s)| == 0 || !IsWhiteSpace(TrimStart(s)[0])
  {
    if |s| > 0 && IsWhiteSpace(s[0]) {
      TrimStartSpec(s[1..]);
    }
  }

  /** The longest prefix of `s` made of decimal digits. */
  function LeadingDigits(s: string): string {
    if |s| > 0 && IsDigit(s[0]) then [s[0]] + LeadingDigits(s[1..]) else ""
  }

  /** LeadingDigits is the longest all-digit prefix. */
  lemma {:induction false} LeadingDigitsSpec(s: string)
    ensures |LeadingDigits(s)| <= |s| && LeadingDigits(s) == s[..|LeadingDigits(s)|]
    ensures AllDigits(LeadingDigits(s))
    ensures |LeadingDigits(s)| == |s| || !IsDigit(s[|LeadingDigits(s)|])
  {
    if |s| > 0 && IsDigit(s[0]) {
      LeadingDigitsSpec(s[1..]);
    }
  }

  /** `parseInt(s, 10)`: skip leading white space, take an optional sign,
      then the longest run of decimal digits; NaN when that run is empty.
      Whatever follows the digits is ignored. A string without a minus sign
      never reads as a negative number. */
  function ParseInt(s: string): (r: Number)
    ensures r.Finite? && '-' !in s ==> r.value >= 0
  {
    var t := TrimStart(s);
    var signed := |t| > 0 && (t[0] == '-' || t[0] == '+');
    var u := if signed then t[1..] else t;
    var d := LeadingDigits(u);
    if |d| == 0 then NaN
    else if signed && t[0] == '-' then
      TrimStartSpec(s);
      assert t[0] == s[|s| - |t|];
      Finite(-(DigitsValue(d) as int))
    else Finite(DigitsValue(d))
  }

  /** Without any digit, `parseInt` gives NaN. */
  lemma ParseIntWithoutDigits(s: string)
    requires forall i :: 0 <= i < |s| ==> !IsDigit(s[i])
    ensures ParseInt(s) == NaN
  {
    var t := TrimStart(s);
    TrimStartSpec(s);
    var u := if |t| > 0 && (t[0] == '-' || t[0] == '+') then t[1..] else t;
    LeadingDigitsSpec(u);
  }

  /** A digit string followed by a non-digit is read as exactly that digit string. */
  lemma {:induction false} LeadingDigitsOfDigits(d: string, rest: string)
    requires AllDigits(d)
    requires |rest| == 0 || !IsDigit(rest[0])
    ensures LeadingDigits(d + rest) == d
  {
    if |d| == 0 {
      assert d + rest == rest;
    } else {
      assert (d + rest)[1..] == d[1..] + rest;
      LeadingDigitsOfDigits(d[1..], rest);
    }
  }

  /** `parseInt` reads back what `String` writes for a non-negative integer,
      whatever non-digit text follows it. */
  lemma ParseIntOfDecimal(n: nat, rest: string)
    requires |rest| == 0 || !IsDigit(rest[0])
    ensures ParseInt(Decimal(n) + rest) == Finite(n)
  {
    var s := Decimal(n) + rest;
    DecimalIsCanonical(n);
    assert s[0] == Decimal(n)[0];
    assert TrimStart(s) == s;
    LeadingDigitsOfDigits(Decimal(n), rest);
    DecimalValue(n);
  }
}

=== FILE: js_string.dfy ===
/** The JavaScript string operations the handlers rely on:
    `s.replace(/pat/, '')`, `s.split(sep)` and `parts.join(sep)`. */
module JsString {
  import opened Wrappers

  /** `pat` occurs in `s` starting at offset `i`. */
  predicate OccursAt(s: string, pat: string, i: nat) {
    i + |pat| <= |s| && s[i..i + |pat|] == pat
  }

  /** `s.replace(/pat/, '')` for a non-empty pattern without
      regular-expression metacharacters: deletes the leftmost occurrence of
      `pat`, if any. */
  function RemoveFirst(s: string, pat: string): (r: string)
    requires |pat| > 0
    ensures |r| == |s| || |r| == |s| - |pat|
  {
    if |s| < |pat| then s
    else if s[..|pat|] == pat then s[|pat|..]
    else [s[0]] + RemoveFirst(s[1..], pat)
  }

  /** An occurrence in the tail is an occurrence one place later. */
  lemma OccursShift(s: string, pat: string, j: nat)
    requires |s| > 0
    ensures OccursAt(s[1..], pat, j) <==> OccursAt(s, pat, j + 1)
  {
    if j + 1 + |pat| <= |s| {
      assert s[1..][j..j + |pat|] == s[j + 1..j + 1 + |pat|];
    }
  }

  /** RemoveFirst deletes the leftmost occurrence and keeps everything else:
      the result is the text before offset `i` followed by the text after
      the occurrence at `i`, and `pat` occurs nowhere before `i`. */
  lemma {:induction false} RemoveFirstLeftmost(s: string, pat: string, i: nat)
    requires |pat| > 0
    requires OccursAt(s, pat, i)
    requires forall j: nat :: j < i ==> !OccursAt(s, pat, j)
    ensures RemoveFirst(s, pat) == s[..i] + s[i + |pat|..]
    decreases i
  {
    if i > 0 {
      assert !OccursAt(s, pat, 0);
      forall j: nat | j < i - 1
        ensures !OccursAt(s[1..], pat, j)
      {
        OccursShift(s, pat, j);
      }
      OccursShift(s, pat, i - 1);
      RemoveFirstLeftmost(s[1..], pat, i - 1);
      assert RemoveFirst(s, pat) == [s[0]] + RemoveFirst(s[1..], pat);
      assert s[1..][..i - 1] == s[1..i] && s[1..][i - 1 + |pat|..] == s[i + |pat|..];
      assert [s[0]] + s[1..i] == s[..i];
    }
  }

  /** A string in which `pat` does not occur is left unchanged. */
  lemma {:induction false} RemoveFirstWhenAbsent(s: string, pat: string)
    requires |pat| > 0
    requires forall j: nat :: !OccursAt(s, pat, j)
    ensures RemoveFirst(s, pat) == s
  {
    if |s| >= |pat| {
      assert !OccursAt(s, pat, 0);
      forall j: nat
        ensures !OccursAt(s[1..], pat, j)
      {
        OccursShift(s, pat, j);
      }
      RemoveFirstWhenAbsent(s[1..], pat);
      assert [s[0]] + s[1..] == s;
    }
  }

  /** A string that starts with `pat` loses exactly that prefix. */
  lemma RemoveFirstOfPrefixed(pat: string, t: string)
    requires |pat| > 0
    ensures RemoveFirst(pat + t, pat) == t
  {
  }

  /** `parts.join(sep)`: the parts with one `sep` between neighbours; the
      empty list joins to the empty string. */
  function Join(parts: seq<string>, sep: char): (s: string)
    ensures |parts| > 0 ==> parts[0] <= s
  {
    if |parts| == 0 then ""
    else if |parts| == 1 then parts[0]
    else parts[0] + [sep] + Join(parts[1..], sep)
  }

  /** `s.split(sep)` for a one-character separator: the maximal pieces of
      `s` between separators, always at least one (possibly empty). */
  function Split(s: string, sep: char): (parts: seq<string>)
    ensures |parts| >= 1
  {
    if |s| == 0 then [""]
    else
      var rest := Split(s[1..], sep);
      if s[0] == sep then [""] + rest
      else [[s[0]] + rest[0]] + rest[1..]
  }

  /** Joining the pieces with the separator gives back the string. */
  lemma {:induction false} JoinOfSplit(s: string, sep: char)
    ensures Join(Split(s, sep), sep) == s
  {
    if |s| > 0 {
      var rest := Split(s[1..], sep);
      JoinOfSplit(s[1..], sep);
      if s[0] != sep {
        assert Join(rest, sep) == rest[0] + (if |rest| == 1 then "" else [sep] + Join(rest[1..], sep));
        assert [s[0]] + s[1..] == s;
      } else {
        assert [s[0]] + s[1..] == s;
      }
    }
  }

  /** No piece contains the separator. */
  lemma {:induction false} SplitPiecesLackSeparator(s: string, sep: char)
    ensures forall i :: 0 <= i < |Split(s, sep)| ==> sep !in Split(s, sep)[i]
  {
    if |s| > 0 {
      SplitPiecesLackSeparator(s[1..], sep);
    }
  }

  /** A string without the separator is one piece. */
  lemma {:induction false} SplitWithoutSeparator(a: string, sep: char)
    requires sep !in a
    ensures Split(a, sep) == [a]
  {
    if |a| > 0 {
      SplitWithoutSeparator(a[1..], sep);
      assert [a[0]] + a[1..] == a;
    }
  }

  /** A separator-free prefix followed by the separator is the first piece. */
  lemma {:induction false} SplitAtFirstSeparator(a: string, sep: char, b: string)
    requires sep !in a
    ensures Split(a + [sep] + b, sep) == [a] + Split(b, sep)
  {
    var s := a + [sep] + b;
    if |a| == 0 {
      assert s[1..] == b;
    } else {
      assert s[1..] == a[1..] + [sep] + b;
      SplitAtFirstSeparator(a[1..], sep, b);
      assert [a[0]] + a[1..] == a;
    }
  }

  /** Splitting undoes joining, as long as no part contains the separator
      and there is at least one part. */
  lemma {:induction false} SplitOfJoin(parts: seq<string>, sep: char)
    requires |parts| >= 1
    requires forall i :: 0 <= i < |parts| ==> sep !in parts[i]
    ensures Split(Join(parts, sep), sep) == parts
  {
    if |parts| == 1 {
      SplitWithoutSeparator(parts[0], sep);
    } else {
      SplitOfJoin(parts[1..], sep);
      SplitAtFirstSeparator(parts[0], sep, Join(parts[1..], sep));
      assert [parts[0]] + parts[1..] == parts;
    }
  }
}

=== FILE: movie_input.dfy ===
/** The input check of `POST /movies`: the JSON body must name a title, a
    description, a trailer URL and a movie URL, all truthy, and a
    `hashtags` array; the row handed to the database stores the hashtags
    as one comma-joined string. */
module MovieInput {
  import opened Wrappers
  import opened JsNumber
  import opened JsString

  /** A JSON value as `express.json()` delivers it. Numbers are the integers
      a request carries for these fields; fractions and exponents are not
      part of this model. */
  datatype Json =
    | JNull
    | JBool(b: bool)
    | JNumber(n: int)
    | JString(s: string)
    | JArray(items: seq<Json>)
    | JObject(fields: map<string, Json>)

  /** The value of `body[key]`; None stands for `undefined`. */
  function Field(body: map<string, Json>, key: string): Option<Json> {
    if key in body then Some(body[key]) else None
  }

  /** JavaScript truthiness: `undefined`, `null`, `false`, `0` and `""` are
      falsy; every other value, including every array and object, is truthy. */
  predicate Truthy(v: Option<Json>) {
    match v
    case None => false
    case Some(JNull) => false
    case Some(JBool(b)) => b
    case Some(JNumber(n)) => n != 0
    case Some(JString(s)) => s != ""
    case Some(JArray(_)) => true
    case Some(JObject(_)) => true
  }

  /** `Array.isArray(v)`. */
  predicate IsArray(v: Option<Json>) {
    v.Some? && v.value.JArray?
  }

  /** The text fields a new movie must carry, each non-empty (truthy). */
  const REQUIRED_FIELDS: seq<string> := ["title", "description", "trailerUrl", "fullMovieUrl"]

  /** A body the route accepts: every required field truthy and `hashtags`
      an array. */
  predicate Complete(body: map<string, Json>) {
    && (forall i :: 0 <= i < |REQUIRED_FIELDS| ==> Truthy(Field(body, REQUIRED_FIELDS[i])))
    && IsArray(Field(body, "hashtags"))
  }

  /** Writing `v` as a string throws a TypeError. A JSON value is never
      callable, so an object with its own `toString` key has no callable
      `toString`, and the `valueOf` that conversion falls back to returns
      the object itself, which is no primitive. An array throws when any
      element does, at any depth. */
  predicate PrintThrows(v: Json)
    decreases v
  {
    match v
    case JObject(fields) => "toString" in fields
    case JArray(items) => exists i :: 0 <= i < |items| && PrintThrows(items[i])
    case _ => false
  }

  /** How `Array.prototype.join` writes one element, or None when writing it
      throws: `null` as the empty string, a nested array as its own
      comma-join, an object as "[object Object]", anything else as
      `String(v)`. */
  function ElementString(v: Json): (s: Option<string>)
    ensures s.None? <==> PrintThrows(v)
    ensures v.JString? ==> s == Some(v.s)
    ensures s == Some("") ==> v.JNull? || v.JString? || v.JArray?
    decreases v
  {
    match v
    case JNull => Some("")
    case JBool(b) => Some(if b then "true" else "false")
    case JNumber(n) => Some(ToString(Finite(n)))
    case JString(s) => Some(s)
    case JArray(items) =>
      if exists i :: 0 <= i < |items| && ElementString(items[i]).None? then None
      else Some(Join(seq(|items|, i requires 0 <= i < |items| && ElementString(items[i]).Some? => ElementString(items[i]).value), ','))
    case JObject(fields) => if "toString" in fields then None else Some("[object Object]")
  }

  /** `items.join(',')`, or None when it throws. */
  function JoinItems(items: seq<Json>): (s: Option<string>)
    ensures s.None? <==> exists i :: 0 <= i < |items| && PrintThrows(items[i])
    ensures s.Some? && |items| > 0 ==> ElementString(items[0]).Some? && ElementString(items[0]).value <= s.value
  {
    ElementString(JArray(items))
  }

  /** The values bound to the INSERT statement's five placeholders. */
  datatype MovieRow = MovieRow(title: Json, description: Json, hashtags: string, trailerUrl: Json, fullMovieUrl: Json)

  /** What the route does with a body: 400 "Invalid input data", a throw
      from `hashtags.join(',')` before anything reaches the database, or the
      row handed to `db.run`. */
  datatype Outcome = BadRequest | JoinThrows | Insert(row: MovieRow)

  /** The route's decision: 400 "Invalid input data" unless the body is
      complete; a throw when joining the hashtags throws; otherwise the row
      to insert, with the fields as sent and the hashtags comma-joined. */
  function CreateMovie(body: map<string, Json>): (r: Outcome)
    ensures r.BadRequest? <==> !Complete(body)
    ensures r.JoinThrows? <==>
              && Complete(body)
              && exists i :: 0 <= i < |body["hashtags"].items| && PrintThrows(body["hashtags"].items[i])
    ensures r.Insert? ==>
              && Some(r.row.title) == Field(body, "title")
              && Some(r.row.description) == Field(body, "description")
              && Some(r.row.trailerUrl) == Field(body, "trailerUrl")
              && Some(r.row.fullMovieUrl) == Field(body, "fullMovieUrl")
              && Some(r.row.hashtags) == JoinItems(body["hashtags"].items)
  {
    var title := Field(body, "title");
    var description := Field(body, "description");
    var hashtags := Field(body, "hashtags");
    var trailerUrl := Field(body, "trailerUrl");
    var fullMovieUrl := Field(body, "fullMovieUrl");
    assert REQUIRED_FIELDS[0] == "title" && REQUIRED_FIELDS[1] == "description";
    assert REQUIRED_FIELDS[2] == "trailerUrl" && REQUIRED_FIELDS[3] == "fullMovieUrl";
    if !Truthy(title) || !Truthy(description) || !Truthy(trailerUrl) || !Truthy(fullMovieUrl) || !IsArray(hashtags) then
      BadRequest
    else
      match JoinItems(hashtags.value.items)
      case None => JoinThrows
      case Some(tags) => Insert(MovieRow(title.value, description.value, tags, trailerUrl.value, fullMovieUrl.value))
  }

  /** String tags are stored as written: the strings themselves, one comma
      between neighbours. */
  lemma JoinItemsOfStrings(tags: seq<string>)
    ensures JoinItems(seq(|tags|, i requires 0 <= i < |tags| => JString(tags[i]))) == Some(Join(tags, ','))
  {
    var items := seq(|tags|, i requires 0 <= i < |tags| => JString(tags[i]));
    forall i | 0 <= i < |items|
      ensures ElementString(items[i]) == Some(tags[i])
    {
      assert items[i] == JString(tags[i]);
    }
    assert seq(|items|, i requires 0 <= i < |items| && ElementString(items[i]).Some? => ElementString(items[i]).value) == tags;
  }

  /** A non-empty list of string tags without commas is recovered from the
      stored column by splitting it at the commas. */
  lemma HashtagsRoundTrip(body: map<string, Json>, tags: seq<string>)
    requires Complete(body)
    requires |tags| >= 1
    requires forall i :: 0 <= i < |tags| ==> ',' !in tags[i]
    requires body["hashtags"] == JArray(seq(|tags|, i requires 0 <= i < |tags| => JString(tags[i])))
    ensures CreateMovie(body).Insert?
    ensures Split(CreateMovie(body).row.hashtags, ',') == tags
  {
    JoinItemsOfStrings(tags);
    SplitOfJoin(tags, ',');
  }

  /** An empty hashtags array is stored as the empty string, which splits
      back into one empty tag rather than none. */
  lemma EmptyHashtags(body: map<string, Json>)
    requires Complete(body)
    requires body["hashtags"] == JArray([])
    ensures CreateMovie(body).Insert?
    ensures CreateMovie(body).row.hashtags == ""
    ensures Split(CreateMovie(body).row.hashtags, ',') == [""]
  {
  }

  /** A body without a title, or with an empty one, is refused whatever else
      it carries; so is one whose hashtags are a string rather than an
      array. */
  lemma IncompleteBodiesRefused(body: map<string, Json>, tags: string)
    ensures "title" !in body ==> CreateMovie(body) == BadRequest
    ensures CreateMovie(body["title" := JString("")]) == BadRequest
    ensures CreateMovie(body["hashtags" := JString(tags)]) == BadRequest
  {
  }

  /** A complete body with a nested tag list and a number among its tags:
      the nested list is flattened into the same comma-joined text. */
  lemma NestedHashtagsExample()
    ensures var body := map["title" := JString("Solaris"), "description" := JString("Drama"),
                            "trailerUrl" := JString("/t.mp4"), "fullMovieUrl" := JString("/m.mp4"),
                            "hashtags" := JArray([JString("sci-fi"), JArray([JString("a"), JNumber(7)]), JNull])];
            CreateMovie(body) == Insert(MovieRow(JString("Solaris"), JString("Drama"), "sci-fi,a,7,", JString("/t.mp4"), JString("/m.mp4")))
  {
    NestedTagsJoined();
  }

  /** The nested list `["a", 7]` is written "a,7". */
  lemma NestedListJoined()
    ensures ElementString(JArray([JString("a"), JNumber(7)])) == Some("a,7")
  {
    var inner := [JString("a"), JNumber(7)];
    assert ToString(Finite(7)) == "7";
    assert !PrintThrows(inner[0]) && !PrintThrows(inner[1]);
    assert seq(|inner|, i requires 0 <= i < |inner| && ElementString(inner[i]).Some? => ElementString(inner[i]).value) == ["a", "7"];
    assert ["a", "7"][1..] == ["7"];
    assert Join(["a", "7"], ',') == "a,7";
  }

  /** The example's tag list is written "sci-fi,a,7,". */
  lemma NestedTagsJoined()
    ensures JoinItems([JString("sci-fi"), JArray([JString("a"), JNumber(7)]), JNull]) == Some("sci-fi,a,7,")
  {
    var tags := [JString("sci-fi"), JArray([JString("a"), JNumber(7)]), JNull];
    NestedListJoined();
    assert !PrintThrows(tags[0]) && !PrintThrows(tags[1]) && !PrintThrows(tags[2]);
    assert seq(|tags|, i requires 0 <= i < |tags| && ElementString(tags[i]).Some? => ElementString(tags[i]).value) == ["sci-fi", "a,7", ""];
    assert ["sci-fi", "a,7", ""][1..] == ["a,7", ""];
    assert ["a,7", ""][1..] == [""];
    assert Join(["sci-fi", "a,7", ""], ',') == "sci-fi,a,7,";
  }

  /** The request body the examples below share, before `hashtags` is set. */
  function SampleBody(): map<string, Json> {
    map["title" := JString("a"), "description" := JString("b"),
        "trailerUrl" := JString("c"), "fullMovieUrl" := JString("d")]
  }

  /** With the four text fields filled, the outcome depends on the join alone. */
  lemma SampleOutcome(tags: seq<Json>)
    ensures CreateMovie(SampleBody()["hashtags" := JArray(tags)])
            == if JoinItems(tags).None? then JoinThrows
               else Insert(MovieRow(JString("a"), JString("b"), JoinItems(tags).value, JString("c"), JString("d")))
  {
    var body := SampleBody()["hashtags" := JArray(tags)];
    assert Field(body, "title") == Some(JString("a"));
    assert Field(body, "hashtags") == Some(JArray(tags));
  }

  /** An object tag with its own `toString` key makes the join throw, also
      inside a nested array, so nothing is inserted; an object tag without
      one is stored as "[object Object]". */
  lemma ObjectHashtagsExample()
    ensures var body := SampleBody();
            && CreateMovie(body["hashtags" := JArray([JObject(map["toString" := JNumber(1)])])]) == JoinThrows
            && CreateMovie(body["hashtags" := JArray([JArray([JObject(map["toString" := JNull])])])]) == JoinThrows
            && CreateMovie(body["hashtags" := JArray([JObject(map["name" := JString("x")])])])
               == Insert(MovieRow(JString("a"), JString("b"), "[object Object]", JString("c"), JString("d")))
  {
    var own := [JObject(map["toString" := JNumber(1)])];
    var nested := [JArray([JObject(map["toString" := JNull])])];
    var plain := [JObject(map["name" := JString("x")])];
    assert PrintThrows(nested[0].items[0]);
    assert PrintThrows(own[0]) && PrintThrows(nested[0]);
    SampleOutcome(own);
    SampleOutcome(nested);
    assert seq(|plain|, i requires 0 <= i < |plain| && ElementString(plain[i]).Some? => ElementString(plain[i]).value) == ["[object Object]"];
    SampleOutcome(plain);
  }
}

=== FILE: range_corrected.dfy ===
/** The streaming handler with the range checks of RFC 7233 added. The
    header is split and read exactly as the handler in routes/movies.js
    reads it; what changes is how the pieces are interpreted:
    - `bytes=<first>-<last>`: a last offset at or past the end of the file
      means the rest of the file (section 2.1), and a last offset before the
      first is invalid and refused with 416 (sections 2.1 and 3.1), like a
      first offset past the file (section 4.4);
    - `bytes=-<n>`: a suffix range, the final `n` bytes (section 2.1), and
      416 when `n` is 0;
    - anything else, where the first piece is not a number or a non-empty
      second piece is not one: the Range header is ignored, as section 3.1
      allows, and the file is served from offset 0.
    Every 206 answer then names a non-empty window inside the file and
    carries exactly the announced number of bytes. RangeStream models the
    handler as written. */
module CorrectedRange {
  import opened Wrappers
  import opened JsNumber
  import opened RangeStream

  /** A 206 answer that keeps its promises for `file` under a `chunk`-byte
      cap: a non-empty window inside the file, at most `chunk` bytes long,
      whose bytes are exactly what the read stream sends and as many as
      Content-Length announces. */
  predicate Serves(chunk: nat, file: seq<byte>, r: Response) {
    && r.Partial?
    && r.start.Finite? && r.chunkEnd.Finite? && r.contentLength.Finite?
    && 0 <= r.start.value <= r.chunkEnd.value < |file|
    && r.size == |file|
    && r.contentLength.value == r.chunkEnd.value - r.start.value + 1
    && 1 <= r.contentLength.value <= chunk
    && FileBytesSent(file, r) == Some(file[r.start.value..r.chunkEnd.value + 1])
    && |file[r.start.value..r.chunkEnd.value + 1]| == r.contentLength.value
  }

  /** The offsets a request selects: an inclusive range, or none at all. */
  datatype Selection = Bytes(first: nat, last: int) | Unsatisfiable

  /** `bytes=-<n>`: an empty first piece followed by a non-empty second one. */
  predicate IsSuffixSpec(parts: seq<string>) {
    |parts| > 1 && parts[0] == "" && parts[1] != ""
  }

  /** The offsets a header selects in a `size`-byte file, read as RFC 7233
      reads a byte-range-spec from the pieces the handler parses. A
      selection is always a non-empty range inside the file, so an empty
      file selects nothing. */
  function Select(size: nat, header: Option<string>): (s: Selection)
    ensures s.Bytes? ==> s.first <= s.last < size
    ensures size == 0 ==> s.Unsatisfiable?
  {
    var parts := RangeParts(header);
    var req := ParseRange(size, header);
    if req.start.Finite? && req.end.Finite? then
      var first: nat := req.start.value;
      var last := MinInt(req.end.value, size - 1);
      if first >= size || last < first then Unsatisfiable else Bytes(first, last)
    else if req.start.NaN? && IsSuffixSpec(parts) && req.end.Finite? then
      var n := req.end.value;
      if n <= 0 || size == 0 then Unsatisfiable else Bytes(MaxInt(0, size - n), size - 1)
    else if size == 0 then Unsatisfiable
    else Bytes(0, size - 1)
  }

  /** The answer for a selection: 416 when nothing is selected, otherwise
      206 with the window from the first selected offset to the last one
      or to the end of the first `chunk` bytes, whichever comes first. */
  function RespondFixed(chunk: nat, file: seq<byte>, s: Selection): (r: Response)
    requires chunk >= 1
    requires s.Bytes? ==> s.first <= s.last < |file|
    ensures !r.NotFound?
    ensures r.RangeNotSatisfiable? <==> s.Unsatisfiable?
    ensures r.Partial? ==> Serves(chunk, file, r)
    ensures r.Partial? ==> r.start.value == s.first && r.chunkEnd.value <= s.last
    ensures r.Partial? && r.chunkEnd.value < s.last ==> r.contentLength.value == chunk
  {
    match s
    case Unsatisfiable => RangeNotSatisfiable
    case Bytes(first, last) =>
      var chunkEnd := MinInt(first + chunk - 1, last);
      ReadStreamInside(file, first, chunkEnd);
      Partial(Finite(first), Finite(chunkEnd), |file|, Finite(chunkEnd - first + 1))
  }

  /** The corrected handler: 404 when the file is missing, otherwise the
      answer for what the header selects. */
  function HandleFixed(chunk: nat, asset: Option<seq<byte>>, header: Option<string>): (r: Response)
    requires chunk >= 1
    ensures r.NotFound? <==> asset.None?
    ensures r.Partial? ==> asset.Some? && Serves(chunk, asset.value, r)
  {
    match asset
    case None => NotFound
    case Some(file) => RespondFixed(chunk, file, Select(|file|, header))
  }

  /** On a well-formed request, `start <= end < size` after parsing, the
      corrected handler gives the same answer as the original one. */
  lemma FixedAgreesOnWellFormed(chunk: nat, file: seq<byte>, header: Option<string>)
    requires chunk >= 1
    requires ParseRange(|file|, header).start.Finite? && ParseRange(|file|, header).end.Finite?
    requires ParseRange(|file|, header).start.value <= ParseRange(|file|, header).end.value < |file|
    ensures HandleFixed(chunk, Some(file), header) == Handle(chunk, Some(file), header)
  {
  }

  /** The answers agree on every open-ended request `bytes=<start>-`, so a
      client that pages through a file sees no difference. */
  lemma FixedAgreesOnOpenRange(chunk: nat, asset: Option<seq<byte>>, start: nat)
    requires chunk >= 1
    ensures HandleFixed(chunk, asset, Some(RangeHeader(start, None))) == Handle(chunk, asset, Some(RangeHeader(start, None)))
  {
    if asset.Some? {
      var size := |asset.value|;
      ParseRangeOfHeader(size, start, None);
      if start < size {
        FixedAgreesOnWellFormed(chunk, asset.value, Some(RangeHeader(start, None)));
      }
    }
  }

  /** A first offset at or past the end of the file is refused with 416 by
      both handlers. */
  lemma FixedStartPastFileRefused(chunk: nat, file: seq<byte>, start: nat, end: Option<nat>)
    requires chunk >= 1
    requires start >= |file|
    ensures HandleFixed(chunk, Some(file), Some(RangeHeader(start, end))) == RangeNotSatisfiable
    ensures Handle(chunk, Some(file), Some(RangeHeader(start, end))) == RangeNotSatisfiable
  {
    ParseRangeOfHeader(|file|, start, end);
    StartPastFileRefused(chunk, file, start, end);
  }

  /** A last offset at or past the end of the file selects the rest of the
      file (section 2.1 of RFC 7233), so Content-Length matches the bytes
      sent. */
  lemma FixedEndPastFile(chunk: nat, file: seq<byte>, start: nat, end: nat)
    requires chunk >= 1
    requires start < |file| <= end
    ensures var r := HandleFixed(chunk, Some(file), Some(RangeHeader(start, Some(end))));
            && Serves(chunk, file, r)
            && r.start == Finite(start)
            && r.chunkEnd == Finite(MinInt(start + chunk - 1, |file| - 1))
  {
    ParseRangeOfHeader(|file|, start, Some(end));
  }

  /** A last offset before the first makes the range invalid (section 2.1
      of RFC 7233), and an invalid range is answered with 416 (section 3.1). */
  lemma FixedReversedRefused(chunk: nat, file: seq<byte>, start: nat, end: nat)
    requires chunk >= 1
    requires end < start
    ensures HandleFixed(chunk, Some(file), Some(RangeHeader(start, Some(end)))) == RangeNotSatisfiable
  {
    ParseRangeOfHeader(|file|, start, Some(end));
  }

  /** `bytes=-<n>` selects the final `n` bytes, or the whole of a shorter
      file (section 2.1 of RFC 7233); a suffix of length 0 selects nothing,
      and neither does any range of an empty file. Under the cap the body is
      exactly the file's last `min(n, size)` bytes. */
  lemma FixedSuffixRange(chunk: nat, file: seq<byte>, n: nat)
    requires chunk >= 1
    ensures var r := HandleFixed(chunk, Some(file), Some("bytes=-" + Decimal(n)));
            && (r == RangeNotSatisfiable <==> n == 0 || |file| == 0)
            && (n > 0 && |file| > 0 ==>
                  && Serves(chunk, file, r)
                  && r.start == Finite(|file| - MinInt(n, |file|))
                  && r.chunkEnd == Finite(MinInt(|file| - MinInt(n, |file|) + chunk - 1, |file| - 1)))
            && (n > 0 && |file| > 0 && n <= chunk ==>
                  FileBytesSent(file, r) == Some(file[|file| - MinInt(n, |file|)..]))
  {
    var size := |file|;
    var header := Some("bytes=-" + Decimal(n));
    SelectSuffix(size, n);
    HandleFixedSelects(chunk, file, header);
    if n > 0 && size > 0 {
      TailWindow(chunk, file, size - MinInt(n, size));
    }
  }

  /** The corrected handler answers what the header selects. */
  lemma HandleFixedSelects(chunk: nat, file: seq<byte>, header: Option<string>)
    requires chunk >= 1
    ensures HandleFixed(chunk, Some(file), header) == RespondFixed(chunk, file, Select(|file|, header))
  {
  }

  /** The answer for a selection that runs to the end of the file: a window
      from `first`, and the whole tail when it fits in one chunk. */
  lemma TailWindow(chunk: nat, file: seq<byte>, first: nat)
    requires chunk >= 1
    requires first < |file|
    ensures var r := RespondFixed(chunk, file, Bytes(first, |file| - 1));
            && Serves(chunk, file, r)
            && r.start == Finite(first)
            && r.chunkEnd == Finite(MinInt(first + chunk - 1, |file| - 1))
            && (|file| - first <= chunk ==> FileBytesSent(file, r) == Some(file[first..]))
  {
    if |file| - first <= chunk {
      assert file[first..|file|] == file[first..];
    }
  }

  /** What `bytes=-<n>` selects. */
  lemma SelectSuffix(size: nat, n: nat)
    ensures Select(size, Some("bytes=-" + Decimal(n)))
            == if n == 0 || size == 0 then Unsatisfiable else Bytes(size - MinInt(n, size), size - 1)
  {
    DecimalIsCanonical(n);
    SuffixRangeParts(Decimal(n));
    SuffixRangeParse(size, n);
  }

  /** A header whose first piece holds no digit and is not empty names no
      byte range at all; the corrected handler ignores it (section 3.1 of
      RFC 7233) and answers as both handlers answer a request without Range. */
  lemma FixedIgnoresUnreadableRange(chunk: nat, asset: Option<seq<byte>>, header: string)
    requires chunk >= 1
    requires RangeParts(Some(header))[0] != ""
    requires forall i :: 0 <= i < |RangeParts(Some(header))[0]| ==> !IsDigit(RangeParts(Some(header))[0][i])
    ensures HandleFixed(chunk, asset, Some(header)) == HandleFixed(chunk, asset, None)
    ensures HandleFixed(chunk, asset, Some(header)) == Handle(chunk, asset, None)
  {
    ParseIntWithoutDigits(RangeParts(Some(header))[0]);
    AbsentRangeIsOpenRange(chunk, asset);
    ExampleHeaders();
    FixedAgreesOnOpenRange(chunk, asset, 0);
    if asset.Some? {
      var size := |asset.value|;
      ParseRangeOfHeader(size, 0, None);
    }
  }
}

=== FILE: range_stream.dfy ===
/** The `GET /movies/:id/stream` handler of routes/movies.js: a single
    `Range: bytes=<start>-[<end>]` request against a stored video answered
    with 404, 416 or a 206 partial response of at most CHUNK_SIZE bytes
    (section 4.1 and section 4.4 of RFC 7233).

    The stored video is `Option<seq<byte>>`: None when `fs.stat` fails,
    otherwise the file's bytes, whose length is `stats.size`. */
module RangeStream {
  import opened Wrappers
  import opened JsNumber
  import opened JsString

  newtype byte = x: int | 0 <= x < 256

  /** The handler's CHUNK_SIZE, written there as `50 ** 6`
      (15,625,000,000 bytes). */
  const CHUNK_SIZE: nat := 50 * 50 * 50 * 50 * 50 * 50

  /** The Range value used when the request carries no Range header. */
  const OPEN_RANGE: string := "bytes=0-"

  /** Plain-text bodies of the two error responses. */
  const NOT_FOUND_TEXT: string := "Файл не найден"
  const OUT_OF_RANGE_TEXT: string := "Запрос за пределами размера файла"

  // ---------------------------------------------------------------------
  // Offset arithmetic

  /** The smaller of two offsets. */
  function MinInt(a: int, b: int): int {
    if a <= b then a else b
  }

  /** The larger of two offsets. */
  function MaxInt(a: int, b: int): int {
    if a >= b then a else b
  }

  // ---------------------------------------------------------------------
  // Range header

  /** The `start` and `end` the handler reads from the header. */
  datatype RangeRequest = RangeRequest(start: Number, end: Number)

  /** The header value the handler works on: a missing or empty header
      (both falsy) is replaced by "bytes=0-". */
  function EffectiveRange(header: Option<string>): (range: string)
    ensures range != ""
    ensures header.Some? && header.value != "" ==> range == header.value
  {
    if header.None? || header.value == "" then OPEN_RANGE else header.value
  }

  /** `range.replace(/bytes=/, '').split('-')`. */
  function RangeParts(header: Option<string>): (parts: seq<string>)
    ensures |parts| >= 1
    ensures forall i :: 0 <= i < |parts| ==> '-' !in parts[i]
  {
    var s := RemoveFirst(EffectiveRange(header), "bytes=");
    SplitPiecesLackSeparator(s, '-');
    Split(s, '-')
  }

  /** `start` is `parseInt(parts[0], 10)`; `end` is `parseInt(parts[1], 10)`
      when that piece exists and is non-empty, and `size - 1` otherwise.
      Neither is validated: either may be NaN, and `end` may lie before
      `start` or past the end of the file. */
  function ParseRange(size: nat, header: Option<string>): (r: RangeRequest)
    ensures r.start.Finite? ==> r.start.value >= 0
    ensures r.end.Finite? ==> r.end.value >= 0 || r.end.value == size - 1
  {
    var parts := RangeParts(header);
    var start := ParseInt(parts[0]);
    var end := if |parts| > 1 && parts[1] != "" then ParseInt(parts[1]) else Finite(size - 1);
    RangeRequest(start, end)
  }

  /** The header a client sends for `start` and an optional inclusive `end`. */
  function RangeHeader(start: nat, end: Option<nat>): string {
    "bytes=" + Decimal(start) + "-" + (if end.Some? then Decimal(end.value) else "")
  }

  // ---------------------------------------------------------------------
  // Responses

  datatype Response =
    | NotFound
    | RangeNotSatisfiable
    | Partial(start: Number, chunkEnd: Number, size: nat, contentLength: Number)
  {
    function Status(): nat {
      match this
      case NotFound => 404
      case RangeNotSatisfiable => 416
      case Partial(_, _, _, _) => 206
    }

    /** The plain-text body of an error response. */
    function Text(): string
      requires !Partial?
    {
      if NotFound? then NOT_FOUND_TEXT else OUT_OF_RANGE_TEXT
    }
  }

  /** Status selection and window computation for a file of `size` bytes:
      a start at or past the end of the file answers 416; every other
      request, including one whose start is NaN, answers 206 with the window
      `[start, min(start + chunk - 1, end)]`. */
  function Respond(chunk: nat, size: nat, req: RangeRequest): (r: Response)
    ensures !r.NotFound?
    ensures r.RangeNotSatisfiable? <==> AtLeast(req.start, Finite(size))
    ensures r.Partial? ==>
              && r.size == size && r.start == req.start
              && (r.start.Finite? ==> r.start.value < size)
              && (r.chunkEnd.Finite? <==> req.start.Finite? && req.end.Finite?)
              && (r.contentLength.Finite? <==> r.chunkEnd.Finite?)
    ensures r.Partial? && r.chunkEnd.Finite? ==>
              && r.chunkEnd.value <= req.end.value
              && r.chunkEnd.value <= r.start.value + chunk - 1
              && (r.chunkEnd.value == req.end.value || r.chunkEnd.value == r.start.value + chunk - 1)
              && r.contentLength.value == r.chunkEnd.value - r.start.value + 1
              && r.contentLength.value <= chunk
  {
    if AtLeast(req.start, Finite(size)) then RangeNotSatisfiable
    else
      var chunkEnd := Min(Plus(req.start, Finite(chunk - 1)), req.end);
      var contentLength := Plus(Minus(chunkEnd, req.start), Finite(1));
      Partial(req.start, chunkEnd, size, contentLength)
  }

  /** The streaming handler with a chunk cap of `chunk` bytes (the source
      uses CHUNK_SIZE). A failed stat answers 404 before the Range header is
      looked at; otherwise the header is parsed against the file size. */
  function Handle(chunk: nat, asset: Option<seq<byte>>, header: Option<string>): (r: Response)
    ensures r.NotFound? <==> asset.None?
    ensures asset.Some? ==> r == Respond(chunk, |asset.value|, ParseRange(|asset.value|, header))
  {
    match asset
    case None => NotFound
    case Some(file) => Respond(chunk, |file|, ParseRange(|file|, header))
  }

  /** The Content-Range value of a 206 response: `bytes start-chunkEnd/size`. */
  function ContentRange(r: Response): (v: string)
    requires r.Partial?
    ensures "bytes " < v
  {
    "bytes " + ToString(r.start) + "-" + ToString(r.chunkEnd) + "/" + Decimal(r.size)
  }

  /** The headers written with a 206 response. */
  function Headers(r: Response): (hs: seq<(string, string)>)
    requires r.Partial?
    ensures |hs| == 6
    ensures forall i, j :: 0 <= i < j < |hs| ==> hs[i].0 != hs[j].0
  {
    [ ("Content-Range", ContentRange(r)),
      ("Accept-Ranges", "bytes"),
      ("Content-Length", ToString(r.contentLength)),
      ("Content-Type", "video/mp4"),
      ("Cache-Control", "no-store"),
      ("Content-Disposition", "inline") ]
  }

  /** The bytes a read stream over the inclusive offsets `first..last`
      delivers: it stops early at the end of the file. None when the bounds
      are not an ordered pair of non-negative integers; what the stream
      does then is not part of this model. */
  function ReadStream(file: seq<byte>, first: Number, last: Number): (bytes: Option<seq<byte>>)
    ensures bytes.Some? <==> first.Finite? && last.Finite? && 0 <= first.value <= last.value
    ensures bytes.Some? ==> |bytes.value| <= last.value - first.value + 1
    ensures bytes.Some? && last.value < |file| ==> |bytes.value| == last.value - first.value + 1
  {
    if first.Finite? && last.Finite? && 0 <= first.value <= last.value then
      Some(file[MinInt(first.value, |file|)..MinInt(last.value + 1, |file|)])
    else None
  }

  /** The file bytes sent with a response: none for 404 and 416, the read
      stream over `[start, chunkEnd]` for 206. */
  function FileBytesSent(file: seq<byte>, r: Response): (bytes: Option<seq<byte>>)
    ensures !r.Partial? ==> bytes == Some([])
    ensures r.Partial? && bytes.Some? ==>
              r.start.Finite? && r.chunkEnd.Finite? && |bytes.value| <= r.chunkEnd.value - r.start.value + 1
  {
    if r.Partial? then ReadStream(file, r.start, r.chunkEnd) else Some([])
  }

  // ---------------------------------------------------------------------
  // Reading a Content-Range value back

  predicate IsNumeral(s: string) {
    |s| >= 1 && AllDigits(s)
  }

  /** What a client reads from `bytes <first>-<last>/<size>`. */
  function ParseContentRange(v: string): Option<(nat, nat, nat)> {
    if |v| < 6 || v[..6] != "bytes " then None
    else
      var halves := Split(v[6..], '/');
      if |halves| != 2 then None
      else
        var ends := Split(halves[0], '-');
        if |ends| != 2 || !IsNumeral(ends[0]) || !IsNumeral(ends[1]) || !IsNumeral(halves[1]) then None
        else Some((DigitsValue(ends[0]), DigitsValue(ends[1]), DigitsValue(halves[1])))
  }

  // ---------------------------------------------------------------------
  // Properties

  /** A read stream over a window inside the file delivers exactly that window. */
  lemma ReadStreamInside(file: seq<byte>, first: nat, last: nat)
    requires first <= last < |file|
    ensures ReadStream(file, Finite(first), Finite(last)) == Some(file[first..last + 1])
    ensures |file[first..last + 1]| == last - first + 1
  {
  }

  /** A character that is not a digit does not occur in a string of digits. */
  lemma NonDigitNotIn(c: char, s: string)
    requires AllDigits(s) && !IsDigit(c)
    ensures c !in s
  {
  }

  /** The pieces of a header written as `bytes=<start>-[<end>]`. */
  lemma RangePartsOfHeader(start: nat, end: Option<nat>)
    ensures RangeParts(Some(RangeHeader(start, end)))
            == [Decimal(start), if end.Some? then Decimal(end.value) else ""]
  {
    var e := if end.Some? then Decimal(end.value) else "";
    var tail := Decimal(start) + "-" + e;
    assert RangeHeader(start, end) == "bytes=" + tail;
    assert EffectiveRange(Some(RangeHeader(start, end))) == "bytes=" + tail;
    RemoveFirstOfPrefixed("bytes=", tail);
    DecimalIsCanonical(start);
    NonDigitNotIn('-', Decimal(start));
    SplitAtFirstSeparator(Decimal(start), '-', e);
    if end.Some? {
      DecimalIsCanonical(end.value);
      NonDigitNotIn('-', e);
    }
    SplitWithoutSeparator(e, '-');
  }

  /** A header written as `bytes=<start>-[<end>]` is read back as that start,
      and as that end or `size - 1` when the end is omitted. */
  lemma ParseRangeOfHeader(size: nat, start: nat, end: Option<nat>)
    ensures ParseRange(size, Some(RangeHeader(start, end)))
            == RangeRequest(Finite(start), if end.Some? then Finite(end.value) else Finite(size - 1))
  {
    RangePartsOfHeader(start, end);
    if end.Some? {
      ParseIntOfDecimal(end.value, "");
      assert Decimal(end.value) + "" == Decimal(end.value);
    }
    ParseIntOfDecimal(start, "");
    assert Decimal(start) + "" == Decimal(start);
  }

  /** The handler's answer on integer bounds `start..end` for a file of
      `size` bytes: 416 when the start is past the file, otherwise the
      window from `start` to the smaller of `end` and the last offset of a
      `chunk`-byte cap. `end` is not clamped to the file. */
  function ExpectedResponse(chunk: nat, size: nat, start: nat, end: int): Response {
    if start >= size then RangeNotSatisfiable
    else
      var last := MinInt(start + chunk - 1, end);
      Partial(Finite(start), Finite(last), size, Finite(last - start + 1))
  }

  /** Respond on integer bounds is ExpectedResponse. */
  lemma RespondNumeric(chunk: nat, size: nat, start: nat, end: int)
    ensures Respond(chunk, size, RangeRequest(Finite(start), Finite(end))) == ExpectedResponse(chunk, size, start, end)
  {
  }

  /** A request written as `bytes=<start>-<end>` or `bytes=<start>-` gets the
      expected answer for that start and for that end, or for `size - 1`
      when the end is omitted. The client's end is used as given. */
  lemma HeaderResponse(chunk: nat, file: seq<byte>, start: nat, end: Option<nat>)
    ensures Handle(chunk, Some(file), Some(RangeHeader(start, end)))
            == ExpectedResponse(chunk, |file|, start, if end.Some? then end.value else |file| - 1)
  {
    ParseRangeOfHeader(|file|, start, end);
    RespondNumeric(chunk, |file|, start, if end.Some? then end.value else |file| - 1);
  }

  /** An open-ended request `bytes=<start>-` inside the file gets the next
      `chunk` bytes, or the rest of the file when fewer remain. */
  lemma OpenRangeResponse(chunk: nat, file: seq<byte>, start: nat)
    requires start < |file|
    ensures var r := Handle(chunk, Some(file), Some(RangeHeader(start, None)));
            && r.Partial? && r.start == Finite(start)
            && r.chunkEnd == Finite(MinInt(start + chunk - 1, |file| - 1))
            && r.contentLength == Finite(MinInt(chunk, |file| - start))
  {
    HeaderResponse(chunk, file, start, None);
  }

  /** A start at or past the end of the file is refused with 416 whatever
      end is asked for: no Content-Range is written and no bytes are read. */
  lemma StartPastFileRefused(chunk: nat, file: seq<byte>, start: nat, end: Option<nat>)
    requires start >= |file|
    ensures var r := Handle(chunk, Some(file), Some(RangeHeader(start, end)));
            && r == RangeNotSatisfiable && r.Status() == 416
            && r.Text() == OUT_OF_RANGE_TEXT
            && FileBytesSent(file, r) == Some([])
  {
    HeaderResponse(chunk, file, start, end);
  }

  /** A request without a Range header, with an empty one and with
      `bytes=0-` are answered identically: 416 for an empty file, otherwise
      the first chunk of the file. */
  lemma AbsentRangeIsOpenRange(chunk: nat, asset: Option<seq<byte>>)
    ensures Handle(chunk, asset, None) == Handle(chunk, asset, Some(OPEN_RANGE))
    ensures Handle(chunk, asset, Some("")) == Handle(chunk, asset, Some(OPEN_RANGE))
    ensures asset.Some? ==> Handle(chunk, asset, None) == ExpectedResponse(chunk, |asset.value|, 0, |asset.value| - 1)
  {
    if asset.Some? {
      assert RangeHeader(0, None) == OPEN_RANGE;
      HeaderResponse(chunk, asset.value, 0, None);
    }
  }

  /** A satisfiable request, `start <= end < size`, is answered 206 with a
      non-empty window inside the file of at most `chunk` bytes; the body is
      exactly that window, its length is the Content-Length, and
      Content-Range names the window and the file size. */
  lemma SatisfiableRange(chunk: nat, file: seq<byte>, header: Option<string>)
    requires chunk >= 1
    requires ParseRange(|file|, header).start.Finite? && ParseRange(|file|, header).end.Finite?
    requires ParseRange(|file|, header).start.value <= ParseRange(|file|, header).end.value < |file|
    ensures var r := Handle(chunk, Some(file), header);
            && r.Partial? && r.Status() == 206
            && r.start.Finite? && r.chunkEnd.Finite? && r.contentLength.Finite?
            && r.start.value <= r.chunkEnd.value < |file|
            && 1 <= r.contentLength.value <= chunk
            && FileBytesSent(file, r) == Some(file[r.start.value..r.chunkEnd.value + 1])
            && |file[r.start.value..r.chunkEnd.value + 1]| == r.contentLength.value
            && ContentRange(r)
               == "bytes " + Decimal(r.start.value) + "-" + Decimal(r.chunkEnd.value) + "/" + Decimal(|file|)
            && Headers(r)[2] == ("Content-Length", Decimal(r.contentLength.value))
  {
  }

  /** A client reads `bytes <a>-<b>/<n>` back as the values of the three
      numerals. */
  lemma ParseSpelledRange(a: string, b: string, n: string)
    requires IsNumeral(a) && IsNumeral(b) && IsNumeral(n)
    ensures ParseContentRange("bytes " + a + "-" + b + "/" + n) == Some((DigitsValue(a), DigitsValue(b), DigitsValue(n)))
  {
    var v := "bytes " + a + "-" + b + "/" + n;
    assert v[..6] == "bytes ";
    assert v[6..] == a + "-" + b + "/" + n;
    NonDigitNotIn('/', a);
    NonDigitNotIn('/', b);
    NonDigitNotIn('/', n);
    NonDigitNotIn('-', a);
    NonDigitNotIn('-', b);
    assert '/' !in a + "-" + b;
    SplitAtFirstSeparator(a + "-" + b, '/', n);
    SplitWithoutSeparator(n, '/');
    SplitAtFirstSeparator(a, '-', b);
    SplitWithoutSeparator(b, '-');
  }

  /** Content-Range read back by a client gives the window and the size. */
  lemma {:induction false} ContentRangeRoundTrip(first: nat, last: nat, size: nat, len: Number)
    ensures ParseContentRange(ContentRange(Partial(Finite(first), Finite(last), size, len)))
            == Some((first, last, size))
  {
    ToStringOfNat(first);
    ToStringOfNat(last);
    DecimalIsCanonical(first);
    DecimalIsCanonical(last);
    DecimalIsCanonical(size);
    DecimalValue(first);
    DecimalValue(last);
    DecimalValue(size);
    ParseSpelledRange(Decimal(first), Decimal(last), Decimal(size));
  }

  // ---------------------------------------------------------------------
  // What the handler leaves unchecked

  /** For an end at or past the end of the file, the window on integer
      bounds reaches past the file exactly when the cap does too; the read
      stream then delivers only the rest of the file, and otherwise the
      whole window. An end within the cap is named as it is. */
  lemma ExpectedPastEnd(chunk: nat, file: seq<byte>, start: nat, end: nat)
    requires chunk >= 1
    requires start < |file| <= end
    ensures var r := ExpectedResponse(chunk, |file|, start, end);
            && r.Partial? && r.start == Finite(start) && r.chunkEnd.Finite?
            && r.contentLength == Finite(r.chunkEnd.value - start + 1)
            && (end - start < chunk ==> r.chunkEnd == Finite(end))
            && (r.chunkEnd.value >= |file| <==> start + chunk - 1 >= |file|)
            && (r.chunkEnd.value >= |file| ==> FileBytesSent(file, r) == Some(file[start..]))
            && (r.chunkEnd.value < |file| ==> FileBytesSent(file, r) == Some(file[start..r.chunkEnd.value + 1]))
  {
    assert file[start..|file|] == file[start..];
  }

  /** An end at or past the end of the file is not clamped: whenever the
      cap does not cut the window first, Content-Range and Content-Length
      promise bytes the file does not have, and the read stream delivers
      fewer bytes than Content-Length announces. When the cap cuts first,
      the counts agree. */
  lemma EndPastFileOverstatesLength(chunk: nat, file: seq<byte>, start: nat, end: nat)
    requires chunk >= 1
    requires start < |file| <= end
    ensures var r := Handle(chunk, Some(file), Some(RangeHeader(start, Some(end))));
            && r.Partial? && r.Status() == 206 && r.contentLength.Finite?
            && (end - start < chunk ==> r == Partial(Finite(start), Finite(end), |file|, Finite(end - start + 1)))
            && FileBytesSent(file, r).Some?
            && (|FileBytesSent(file, r).value| < r.contentLength.value <==> start + chunk - 1 >= |file|)
            && (start + chunk - 1 < |file| ==> |FileBytesSent(file, r).value| == r.contentLength.value)
  {
    HeaderResponse(chunk, file, start, Some(end));
    ExpectedPastEnd(chunk, file, start, end);
  }

  /** For an end before the start, the window on integer bounds runs
      backwards and the read stream has no defined body for it. */
  lemma ExpectedReversed(chunk: nat, file: seq<byte>, start: nat, end: nat)
    requires chunk >= 1
    requires end < start < |file|
    ensures var r := ExpectedResponse(chunk, |file|, start, end);
            && r == Partial(Finite(start), Finite(end), |file|, Finite(end - start + 1))
            && FileBytesSent(file, r).None?
  {
  }

  /** An end before the start is not rejected: the answer is 206 with a
      Content-Length of zero or less and a window the read stream cannot
      serve. */
  lemma ReversedRangeNonPositiveLength(chunk: nat, file: seq<byte>, start: nat, end: nat)
    requires chunk >= 1
    requires end < start < |file|
    ensures var r := Handle(chunk, Some(file), Some(RangeHeader(start, Some(end))));
            && r == Partial(Finite(start), Finite(end), |file|, Finite(end - start + 1))
            && r.Status() == 206
            && r.contentLength.value <= 0
            && FileBytesSent(file, r).None?
  {
    HeaderResponse(chunk, file, start, Some(end));
    ExpectedReversed(chunk, file, start, end);
  }

  /** `bytes=-<digits>` splits into an empty start piece and the digits. */
  lemma SuffixRangeParts(d: string)
    requires AllDigits(d)
    ensures RangeParts(Some("bytes=-" + d)) == ["", d]
  {
    assert "bytes=-" + d == "bytes=" + ("-" + d);
    RemoveFirstOfPrefixed("bytes=", "-" + d);
    assert "-" + d == "" + "-" + d;
    SplitAtFirstSeparator("", '-', d);
    NonDigitNotIn('-', d);
    SplitWithoutSeparator(d, '-');
  }

  /** `bytes=-<n>` is read as a NaN start and the end `n`. */
  lemma SuffixRangeParse(size: nat, n: nat)
    ensures ParseRange(size, Some("bytes=-" + Decimal(n))) == RangeRequest(NaN, Finite(n))
  {
    DecimalIsCanonical(n);
    SuffixRangeParts(Decimal(n));
    ParseIntWithoutDigits("");
    ParseIntOfDecimal(n, "");
    assert Decimal(n) + "" == Decimal(n);
  }

  /** A suffix request `bytes=-<n>` has no start digits: `parseInt` gives
      NaN, `NaN >= size` is false, and the answer is 206 with NaN in
      Content-Range and Content-Length. */
  lemma SuffixRangeYieldsNaN(chunk: nat, file: seq<byte>, n: nat)
    ensures var r := Handle(chunk, Some(file), Some("bytes=-" + Decimal(n)));
            && r == Partial(NaN, NaN, |file|, NaN)
            && r.Status() == 206
            && ContentRange(r) == "bytes NaN-NaN/" + Decimal(|file|)
            && FileBytesSent(file, r).None?
  {
    SuffixRangeParse(|file|, n);
    assert Respond(chunk, |file|, RangeRequest(NaN, Finite(n))) == Partial(NaN, NaN, |file|, NaN);
    NaNContentRange(|file|);
  }

  /** NaN bounds are written as "NaN" in Content-Range. */
  lemma NaNContentRange(size: nat)
    ensures ContentRange(Partial(NaN, NaN, size, NaN)) == "bytes NaN-NaN/" + Decimal(size)
  {
  }

  // ---------------------------------------------------------------------
  // Worked examples: a 5,000,000-byte video with a 1,000,000-byte cap, and
  // the same video under the handler's own CHUNK_SIZE

  /** The decimal spellings the examples use, one digit at a time. */
  lemma Decimal999999()
    ensures Decimal(999999) == "999999"
    ensures ToString(Finite(999999)) == "999999"
  {
    ToStringOfNat(999999);
    DecimalPush(9, 9);
    DecimalPush(99, 9);
    DecimalPush(999, 9);
    DecimalPush(9999, 9);
    DecimalPush(99999, 9);
  }

  /** `1000000`, the Content-Length of a full first window. */
  lemma Decimal1000000()
    ensures Decimal(1000000) == "1000000"
    ensures ToString(Finite(1000000)) == "1000000"
  {
    ToStringOfNat(1000000);
    DecimalPush(1, 0);
    DecimalPush(10, 0);
    DecimalPush(100, 0);
    DecimalPush(1000, 0);
    DecimalPush(10000, 0);
    DecimalPush(100000, 0);
  }

  /** `4999999`, the offset of the last byte of the example file. */
  lemma Decimal4999999()
    ensures Decimal(4999999) == "4999999"
    ensures ToString(Finite(4999999)) == "4999999"
  {
    ToStringOfNat(4999999);
    DecimalPush(4, 9);
    DecimalPush(49, 9);
    DecimalPush(499, 9);
    DecimalPush(4999, 9);
    DecimalPush(49999, 9);
    DecimalPush(499999, 9);
  }

  /** `5000000`, the size of the example file. */
  lemma Decimal5000000()
    ensures Decimal(5000000) == "5000000"
    ensures ToString(Finite(5000000)) == "5000000"
  {
    ToStringOfNat(5000000);
    DecimalPush(5, 0);
    DecimalPush(50, 0);
    DecimalPush(500, 0);
    DecimalPush(5000, 0);
    DecimalPush(50000, 0);
    DecimalPush(500000, 0);
  }

  /** The Range headers of the worked examples. */
  lemma ExampleHeaders()
    ensures RangeHeader(0, None) == "bytes=0-"
    ensures RangeHeader(4999999, None) == "bytes=4999999-"
    ensures RangeHeader(5000000, None) == "bytes=5000000-"
  {
    Decimal4999999();
    Decimal5000000();
  }

  /** The headers of the first window of the worked example. */
  lemma FirstChunkHeaders()
    ensures ContentRange(Partial(Finite(0), Finite(999999), 5000000, Finite(1000000))) == "bytes 0-999999/5000000"
    ensures ToString(Finite(1000000)) == "1000000"
  {
    Decimal999999();
    Decimal1000000();
    Decimal5000000();
  }

  /** The headers of the last-byte window of the worked example. */
  lemma LastByteHeaders()
    ensures ContentRange(Partial(Finite(4999999), Finite(4999999), 5000000, Finite(1))) == "bytes 4999999-4999999/5000000"
    ensures ToString(Finite(1)) == "1"
  {
    Decimal4999999();
    Decimal5000000();
  }

  /** `bytes=0-` on a 5,000,000-byte file gets the first 1,000,000 bytes. */
  lemma FirstChunkExample(file: seq<byte>)
    requires |file| == 5000000
    ensures var r := Handle(1000000, Some(file), Some(RangeHeader(0, None)));
            && r == Partial(Finite(0), Finite(999999), 5000000, Finite(1000000))
            && ContentRange(r) == "bytes 0-999999/5000000"
            && ToString(r.contentLength) == "1000000"
  {
    HeaderResponse(1000000, file, 0, None);
    FirstChunkHeaders();
  }

  /** `bytes=4999999-` on the same file gets its last byte alone. */
  lemma LastByteExample(file: seq<byte>)
    requires |file| == 5000000
    ensures var r := Handle(1000000, Some(file), Some(RangeHeader(4999999, None)));
            && r == Partial(Finite(4999999), Finite(4999999), 5000000, Finite(1))
            && ContentRange(r) == "bytes 4999999-4999999/5000000"
            && ToString(r.contentLength) == "1"
  {
    HeaderResponse(1000000, file, 4999999, None);
    LastByteHeaders();
  }

  /** A start at the size gets 416, and a missing file gets 404. */
  lemma PastEndExample(file: seq<byte>)
    requires |file| == 5000000
    ensures Handle(1000000, Some(file), Some(RangeHeader(5000000, None))) == RangeNotSatisfiable
    ensures Handle(1000000, None, Some(RangeHeader(0, None))) == NotFound
  {
    HeaderResponse(1000000, file, 5000000, None);
  }

  /** Under CHUNK_SIZE a 5,000,000-byte video fits in one response. */
  lemma WholeFileUnderChunkSize(file: seq<byte>)
    requires |file| == 5000000
    ensures var r := Handle(CHUNK_SIZE, Some(file), None);
            && r == Partial(Finite(0), Finite(4999999), 5000000, Finite(5000000))
            && FileBytesSent(file, r) == Some(file)
  {
    AbsentRangeIsOpenRange(CHUNK_SIZE, Some(file));
    assert file[0..5000000] == file;
  }
}

=== FILE: wrappers.dfy ===
/** Optional values, used for absent headers, missing files and lookups that may fail. */
module Wrappers {

  datatype Option<+T> = None | Some(value: T)
}
